=== FILE: README.md ===
# Resume parser: extraction dispatcher and request gate

A Dafny model of the resume-parsing service's core: the dispatcher that turns
an uploaded PDF, DOCX or DOC file (or text sent directly) into a result record
with `success`, `text`, `word_count`, `file_type` and `error`, the three
format-specific extractors behind it, and the two HTTP endpoints that gate
requests by size and file name before calling the dispatcher.

The document libraries are uninterpreted and collected in a `Libraries`
record. pdfplumber, python-docx, antiword and docx2txt are functions from the
payload to an abstract outcome: page texts, paragraph texts, an antiword run,
and an optional docx2txt text. spaCy's token count is a function of the text.
The record also holds one fixed outcome for writing the DOC scratch file with
`open`/`write`: it succeeds, or it raises, possibly after creating the file.
The model covers what the code does with those outcomes:

- how page and paragraph texts are assembled and stripped;
- the antiword → docx2txt → `""` fallback;
- the removal of the scratch file `temp_file.doc`, over an explicit set of
  existing paths;
- the type dispatch and result record;
- the 413 / 415 / 422 / 400 status mapping.

Modules:

- `PyBuiltins` (`py_builtins.dfy`): the Python built-ins the code relies on.
  These are `str.isspace` and `str.strip` with Python's whitespace set,
  `str.lower`, `str.split` and `str.join`, `str.endswith` and `str(int)`.
- `Extractors` (`extractors.dfy`): `extract_text_from_pdf`,
  `extract_text_from_docx` and `extract_text_from_doc`.
- `Parser` (`parser.dfy`): `process_resume_file` and `process_resume_text`.
- `Api` (`api.dfy`): `parse_resume_file` and `parse_resume_text` as pure
  functions from a request to a response.

Behaviour worth noting:

- `process_resume_text` fails only on the empty string. Whitespace-only text
  succeeds and is echoed. Blank text is rejected earlier, by the text
  endpoint's 400.
- The DOC extractor falls back to docx2txt only when antiword raises
  `SubprocessError` or `FileNotFoundError`. Any other failure skips docx2txt
  and yields `""`, and so does antiword output that is not valid UTF-8. An
  antiword run that succeeds with empty output also yields `""`.
- The cleanup removes `temp_file.doc` even when it existed before the call.

## Model

| member | source | states |
|---|---|---|
| PyBuiltins.IsSpace | app/parser.py:34 | a character is whitespace for `isspace()` and `strip()` exactly when it is one of Python's 29 whitespace characters, listed one by one |
| PyBuiltins.Strip | app/parser.py:34 | `strip()` returns a slice of its input with only whitespace before and after it, which itself neither starts nor ends with whitespace, and it is empty exactly when the input is all whitespace |
| PyBuiltins.StripIdempotent | app/parser.py:34 | stripping an already stripped text changes nothing |
| PyBuiltins.StripOfStripped | app/parser.py:34 | a text without surrounding whitespace is its own strip |
| PyBuiltins.LowerChar | app/parser.py:90 | an ASCII capital lowers to the small letter at the same place in the alphabet, and any other character is kept |
| PyBuiltins.Lower | app/parser.py:90 | `lower()` keeps the length, replaces every ASCII capital by its small letter and keeps every other character |
| PyBuiltins.LowerProperties | app/parser.py:90 | `lower()` keeps the length, maps characters one by one and is idempotent |
| PyBuiltins.LowerKeepsDots | app/parser.py:90 | lower-casing moves no dot: a dot is at the same positions before and after |
| PyBuiltins.Split | app/parser.py:90 | `split('.')` yields at least one piece and no piece contains the separator |
| PyBuiltins.JoinSplit | app/parser.py:90 | joining the pieces of `s.split(sep)` with `sep` gives back `s` |
| PyBuiltins.SplitJoin | app/parser.py:90 | splitting a join of separator-free pieces gives back the pieces |
| PyBuiltins.SplitPrefix | app/parser.py:90 | a separator-free prefix becomes part of the first piece of the split |
| PyBuiltins.JoinLast | app/parser.py:90 | the last piece of a join follows the last separator |
| PyBuiltins.AfterLastDotSpec | app/parser.py:90 | `split('.')[-1]` is a dot-free suffix: the whole name when it has no dot, otherwise the text right after the last dot |
| PyBuiltins.AfterLastDotOfSuffix | app/parser.py:90 | any dot-free tail that follows a dot is exactly what `split('.')[-1]` yields |
| PyBuiltins.NatToDecimal | app/api.py:67 | `str(n)` is a non-empty run of decimal digits with no leading zero |
| PyBuiltins.NatToDecimalRoundTrip | app/api.py:67 | reading the digits of `str(n)` back gives `n` |
| PyBuiltins.IntToDecimal | app/api.py:67 | `str(i)` starts with a minus sign exactly when `i` is negative, and the digits after any sign are non-empty, have no leading zero and read back as the absolute value of `i` |
| Extractors.PdfText | app/parser.py:25-37 | PDF text never has surrounding whitespace, and it is "" when opening the document or extracting any page raised |
| Extractors.ExtractTextFromPdf | app/parser.py:27-37 | the page loop that appends each truthy page text plus a blank line and returns "" on an exception computes `PdfText` |
| Extractors.JoinPagesAppend | app/parser.py:30-33 | the text of a run of pages is the text of its first part followed by the text of the rest: page order is kept |
| Extractors.JoinPagesSkipsBlank | app/parser.py:32-33 | pages whose text is None or empty contribute nothing |
| Extractors.BlankPdf | app/parser.py:30-34 | a PDF with no page text extracts to "" |
| Extractors.ThreePagePdf | app/parser.py:30-34 | pages "Experience", "Skills", "Education" extract to the three joined by blank lines, with the final blank line stripped |
| Extractors.StripTrailingBlankLine | app/parser.py:33-34 | the blank line after the last page text is removed by the strip and nothing else is |
| Extractors.DocxText | app/parser.py:40-50 | DOCX text never has surrounding whitespace, and it is "" when opening the document raised |
| Extractors.ExtractTextFromDocx | app/parser.py:42-47 | the paragraph loop appending each paragraph plus a newline computes `DocxText` |
| Extractors.JoinParagraphsIsLines | app/parser.py:45-46 | the assembled DOCX text is the paragraphs joined by newlines, with one more newline at the end |
| Extractors.ParagraphsRecoverable | app/parser.py:45-46 | splitting the assembled text, without its final newline, on newlines gives back every paragraph when no paragraph contains a line break, empty paragraphs included |
| Extractors.EmptyParagraphKept | app/parser.py:45-47 | an empty paragraph between two others survives the strip as a blank line |
| Extractors.RemoveIfExists | app/parser.py:73-74 | after the guarded remove the scratch path does not exist and no other path is touched |
| Extractors.DocText | app/parser.py:53-82 | on every exit the scratch file is gone and nothing else changed. The text is the stripped antiword output, or after an antiword subprocess or not-found error the stripped docx2txt output, or "" |
| Extractors.FirstSuccess | app/parser.py:62-70 | the ordered fallback yields the output of the first tool that succeeds, or "" when none does |
| Extractors.DocIsFallbackChain | app/parser.py:62-76 | once the scratch file is written and antiword fails only in a way the fallback catches, DOC text is the stripped first success of the chain antiword, docx2txt |
| Extractors.AntiwordOutputFinal | app/parser.py:62-69 | docx2txt is only consulted after antiword fails, so a successful antiword run, even one with blank output, decides the text |
| Parser.Failure | app/parser.py:101-105 | a failure record has no text, word count or file type and carries exactly the given error message |
| Parser.FileType | app/parser.py:90 | the file type is dot-free, ends the lower-cased name, follows its last dot when there is one, and is the whole lower-cased name otherwise |
| Parser.ExtractByType | app/parser.py:93-99 | the extractor table: `pdf` takes the text pdfplumber's pages give, `docx` the text of python-docx's paragraphs, and `doc` the DOC extractor's text and file-system effect. The text has no surrounding whitespace, and only the DOC entry changes the file system, removing the scratch file |
| Parser.ProcessResumeFile | app/parser.py:85-126 | an unknown type fails with "Unsupported file type: " plus the type and runs no extractor. A known type succeeds exactly when the extraction is non-empty, and a success carries that text, its token count and the type. An empty extraction fails with "Failed to extract text from file" |
| Parser.ProcessResumeText | app/parser.py:129-144 | only the empty string fails, with "No text provided". Any other text, whitespace-only included, is echoed with its token count and no file type |
| Parser.PdfDispatch | app/parser.py:94-95 | a file whose type is `pdf` succeeds exactly when pdfplumber's text is non-empty, carries that text and touches no file |
| Parser.DocxDispatch | app/parser.py:96-97 | a file whose type is `docx` succeeds exactly when python-docx's text is non-empty, carries that text and touches no file |
| Parser.DocDispatch | app/parser.py:98-99 | a file whose type is `doc` succeeds exactly when the DOC extractor's text is non-empty, carries that text, and leaves the paths the DOC extractor leaves |
| Parser.WhitespaceTextAccepted | app/parser.py:131 | whitespace-only text is accepted and echoed by the dispatcher |
| Parser.FileTypeIgnoresCase | app/parser.py:90 | lower-casing a name before dispatch does not change its type |
| Api.ToResponse | app/api.py:81-87 | a failed result becomes 422 carrying its error, and a successful result is returned unchanged |
| Api.TooLargeDetail | app/api.py:65-68 | the 413 detail is "File too large. Maximum size is ", then `max_size` in decimal with no leading zero (a sign only when negative), then " bytes." |
| Api.HasSupportedSuffix | app/api.py:72 | a lower-cased name passes the gate exactly when it ends in a dot followed by a type in {pdf, docx, doc} |
| Api.ParseResumeFile | app/api.py:51-87 | 413 exactly when the payload exceeds `max_size`, so a payload of exactly `max_size` passes. 415 exactly when it fits and the lower-cased name lacks `.pdf`, `.docx` or `.doc`. Otherwise the dispatcher runs on the lower-cased name: 422 carries its error, and that error is always the extraction failure. A success returns its result with a supported type |
| Api.ParseResumeText | app/api.py:91-109 | 400 exactly for empty or whitespace-only text. Otherwise the dispatcher's result is returned with the text echoed, so 422 never occurs |
| Api.ExtensionAfterDot | app/api.py:72 | a name ending in `.` plus a dot-free extension has that extension as its last dot-separated piece |
| Api.GateImpliesSupportedType | app/api.py:71-79 | every name that passes the suffix gate has a type in {pdf, docx, doc}, the same whether or not it was lower-cased first |
| Api.SuffixGivesType | app/api.py:72 | the extension the gate matched is the name's last dot-separated piece |
| Api.GateIffDottedSupportedType | app/api.py:72 | a name passes the gate exactly when it contains a dot and the dispatcher would derive a supported type |
| Api.SuffixHasDot | app/api.py:72 | a name that passes the gate contains a dot |
| Api.TypeGivesSuffix | app/api.py:72 | a name ending in a dot plus a supported type passes the gate |
| Api.GateStrictlyNarrower | app/api.py:72 | the dot-less name `pdf` is dispatched as a PDF but turned away by the gate |
| Api.SizeBeforeType | app/api.py:64-76 | an oversized upload named `resume.txt` gets 413 with the 5242880-byte limit, not 415 |

## Left out

- Library behaviour: what pdfplumber, python-docx, antiword and docx2txt read out of a binary document is not modelled. These are foreign binary-format parsers, so they are uninterpreted functions of the payload.
- The spaCy token count (`len(nlp(text))`) is an uninterpreted `string -> nat`. No concrete word counts are claimed.
- Parser.ProcessResumeFile: the token count is taken never to fail. In the code, `nlp(text)` (app/parser.py:110) is outside any `try`, and spaCy raises `ValueError` on a text longer than `nlp.max_length` (1,000,000 characters by default). That exception escapes the dispatcher, which then returns no result at all.
- Parser.ProcessResumeText: the same holds for `nlp(text)` at app/parser.py:138. Text over spaCy's length limit raises instead of producing a result.
- Api.ParseResumeFile: because of the spaCy limit above, a file whose extracted text is too long gets a 500 response. The contract's "Ok, 413, 415 or 422" holds only for a token count that never fails. `max_size` is chosen by the client, so such a file can pass the size gate.
- Api.ParseResumeText: the text endpoint has no size limit, so non-blank text over spaCy's limit gets a 500 response. The contract's "Ok for any non-blank text" holds only for a token count that never fails.
- The language-model loading fallback at module import (app/parser.py:17-22) is left out because it is process-wide library initialisation.
- Logging through `print` is left out because it has no effect on results.
- PyBuiltins.Lower: models `str.lower()` for ASCII letters only and keeps every other character. Python's full Unicode case mapping is a table outside this model, and it can also change the length (U+0130 lowers to two characters). For a non-ASCII name the "Unsupported file type: " message therefore quotes a different type than Python would. For `cv.ÉPDF` Python quotes `épdf` and the model quotes `Épdf`. No non-ASCII character lowers to a dot or to one of the letters of `pdf`, `docx` and `doc`. So which type is supported, the gate, and the endpoint responses are unaffected: the gate never lets such a name through to that message.
- Extractors.DocText: `os.remove` is taken to succeed, since file-system permission errors are outside the model. If it raised, the exception would escape from the handler.
- Extractors.DocText: antiword output that is not valid UTF-8 is grouped with the other exceptions the inner handler does not catch (`AntiwordRun.OtherError`). All of these lead to "" without trying docx2txt.
- Exceptions that are not `Exception` subclasses, such as KeyboardInterrupt caught by the bare `except:` around docx2txt, are left out.
- Api.ParseResumeFile: a `max_size` field sent as null raises at the size comparison (app/api.py:64). An upload whose file name is `None` passes the size gate, so an oversized one still gets 413, and one that fits raises at `file.filename.lower()` (app/api.py:71). Both are left out: the model takes the name as a string and the limit as an integer.
- Lone surrogate code points: a Python `str` can hold them, for example from a JSON body such as `{"text": "\ud800"}`, but a Dafny `char` cannot. Strings here are sequences of Unicode scalar values. No modelled property depends on the difference.
- Concurrency on the fixed scratch path: two DOC uploads at once can collide on `temp_file.doc`. The model covers a single sequential call.
- FastAPI plumbing is left out: request parsing, the asynchronous `file.read()`, CORS configuration, the root descriptor endpoint, app/main.py (server bootstrap) and test_parser.py (a manual script without assertions).
- Repeating a call with the same bytes and name gives the same result. Every operation here is a pure function, so this holds by construction and is not stated as a separate lemma.

=== FILE: api.dfy ===
/** The two parsing endpoints as pure functions from a request to the HTTP
    response they produce: the size gate, the file-name gate, and the
    mapping of the dispatcher's result to a status. */
module Api {
  import opened PyBuiltins
  import opened Extractors
  import opened Parser

  /** The default `max_size` form field: 5 MiB */
  const DefaultMaxSize: int := 5 * 1024 * 1024

  const UnsupportedTypeDetail: string := "Unsupported file type. Please upload a PDF, DOCX, or DOC file."
  const EmptyTextDetail: string := "Text input cannot be empty."

  /** The response: the result record as the body, or an `HTTPException` */
  datatype Response = Ok(body: ParseResult) | HttpError(status: nat, detail: string)

  /** A response together with the paths that exist afterwards */
  datatype FileResponse = FileResponse(response: Response, paths: set<string>)

  predicate IsStatus(r: Response, status: nat) {
    r.HttpError? && r.status == status
  }

  /** A dispatcher result as a response: a failure becomes 422 carrying the
      result's error (or the endpoint's fallback message when it has none), a
      success is returned unchanged */
  function ToResponse(result: ParseResult, fallback: string): (r: Response)
    ensures r.Ok? <==> result.success
    ensures r.Ok? ==> r.body == result
    ensures !result.success && result.error.Some? ==> r == HttpError(422, result.error.value)
    ensures !result.success && result.error.None? ==> r == HttpError(422, fallback)
  {
    if !result.success then
      HttpError(422, match result.error case Some(e) => e case None => fallback)
    else
      Ok(result)
  }

  const TooLargePrefix: string := "File too large. Maximum size is "
  const TooLargeSuffix: string := " bytes."

  /** The detail of a 413 response: the limit written out in decimal between
      a fixed lead-in and " bytes." */
  function TooLargeDetail(maxSize: int): (r: string)
    ensures |TooLargePrefix| + |TooLargeSuffix| < |r|
    ensures r[..|TooLargePrefix|] == TooLargePrefix
    ensures r[|r| - |TooLargeSuffix|..] == TooLargeSuffix
    ensures var m := r[|TooLargePrefix|..|r| - |TooLargeSuffix|];
            && (maxSize < 0 <==> m[0] == '-')
            && var d := if maxSize < 0 then m[1..] else m;
            && (forall k :: 0 <= k < |d| ==> IsDigit(d[k]))
            && DecimalValue(d) == (if maxSize < 0 then -maxSize else maxSize)
            && |d| >= 1 && (d[0] == '0' ==> d == "0")
  {
    var n := IntToDecimal(maxSize);
    var r := TooLargePrefix + n + TooLargeSuffix;
    assert r[..|TooLargePrefix|] == TooLargePrefix;
    assert r[|r| - |TooLargeSuffix|..] == TooLargeSuffix;
    assert r[|TooLargePrefix|..|r| - |TooLargeSuffix|] == n;
    r
  }

  /** The file-name gate on an already lower-cased name: it ends in a dot
      followed by one of the types the dispatcher has an extractor for */
  predicate HasSupportedSuffix(name: string): (b: bool)
    ensures b <==> exists t :: t in SupportedTypes && EndsWith(name, "." + t)
  {
    assert "." + "pdf" == ".pdf" && "." + "docx" == ".docx" && "." + "doc" == ".doc";
    EndsWith(name, ".pdf") || EndsWith(name, ".docx") || EndsWith(name, ".doc")
  }

  /** `parse_resume_file`: `content` is the uploaded payload, `filename` the
      upload's name and `maxSize` the form field */
  function ParseResumeFile(content: Bytes, filename: string, maxSize: int, libs: Libraries,
                           paths: set<string>): (r: FileResponse)
    // the size gate comes first: 413 exactly for an oversized payload
    ensures IsStatus(r.response, 413) <==> |content| > maxSize
    ensures |content| > maxSize ==>
              r.response == HttpError(413, TooLargeDetail(maxSize)) && r.paths == paths
    // then the name gate: 415 exactly for a payload that fits but has no supported suffix
    ensures IsStatus(r.response, 415) <==> |content| <= maxSize && !HasSupportedSuffix(Lower(filename))
    ensures IsStatus(r.response, 415) ==> r.response.detail == UnsupportedTypeDetail && r.paths == paths
    // past both gates the dispatcher runs on the lower-cased name
    ensures |content| <= maxSize && HasSupportedSuffix(Lower(filename)) ==>
              var p := ProcessResumeFile(content, Lower(filename), libs, paths);
              && r.paths == p.paths
              && (p.result.success ==> r.response == Ok(p.result))
              && (!p.result.success ==> r.response == HttpError(422, p.result.error.value))
    // a 422 can only be an extraction failure, never an unsupported type
    ensures IsStatus(r.response, 422) ==> r.response.detail == ExtractionFailed
    ensures r.response.Ok? ==>
              && r.response.body.success
              && r.response.body.fileType.Some?
              && r.response.body.fileType.value in SupportedTypes
    ensures r.response.Ok? || IsStatus(r.response, 413) || IsStatus(r.response, 415)
            || IsStatus(r.response, 422)
  {
    if |content| > maxSize then
      FileResponse(HttpError(413, TooLargeDetail(maxSize)), paths)
    else
      var name := Lower(filename);
      if !HasSupportedSuffix(name) then
        FileResponse(HttpError(415, UnsupportedTypeDetail), paths)
      else
        GateImpliesSupportedType(filename);
        var p := ProcessResumeFile(content, name, libs, paths);
        FileResponse(ToResponse(p.result, "Failed to process resume file."), p.paths)
  }

  /** `parse_resume_text` */
  function ParseResumeText(text: string, tokenCount: string -> nat): (r: Response)
    ensures IsStatus(r, 400) <==> AllSpace(text)
    ensures AllSpace(text) ==> r == HttpError(400, EmptyTextDetail)
    ensures !AllSpace(text) ==> r == Ok(ProcessResumeText(text, tokenCount))
    ensures r.Ok? ==> r.body.text == text && r.body.success
    // the dispatcher's "No text provided" never reaches the caller
    ensures !IsStatus(r, 422)
  {
    if Strip(text) == "" then HttpError(400, EmptyTextDetail)
    else
      ToResponse(ProcessResumeText(text, tokenCount), "Failed to process resume text.")
  }

  /** A name ending in a dot and a dot-free extension has that extension as
      the text after its last dot */
  lemma ExtensionAfterDot(name: string, ext: string)
    requires '.' !in ext
    requires EndsWith(name, "." + ext)
    ensures AfterLastDot(name) == ext
  {
    var n := |name|;
    assert name[n - |ext| - 1..] == "." + ext;
    assert name[n - |ext| - 1] == ("." + ext)[0];
    assert name[n - |ext|..] == ("." + ext)[1..];
    AfterLastDotOfSuffix(name, ext);
  }

  /** Every name the file-name gate lets through has a type the dispatcher
      supports, so "Unsupported file type" cannot come out of the endpoint */
  lemma GateImpliesSupportedType(filename: string)
    requires HasSupportedSuffix(Lower(filename))
    ensures FileType(filename) in SupportedTypes
    ensures FileType(Lower(filename)) == FileType(filename)
  {
    FileTypeIgnoresCase(filename);
    SuffixGivesType(Lower(filename));
  }

  /** The extension the gate matched is the text after the last dot */
  lemma SuffixGivesType(name: string)
    requires HasSupportedSuffix(name)
    ensures AfterLastDot(name) in SupportedTypes
  {
    if EndsWith(name, ".pdf") {
      ExtensionAfterDot(name, "pdf");
    } else if EndsWith(name, ".docx") {
      ExtensionAfterDot(name, "docx");
    } else {
      ExtensionAfterDot(name, "doc");
    }
  }

  /** The gate is the dispatcher's type test restricted to names with a dot:
      a name passes exactly when it contains a dot and its type is supported */
  lemma GateIffDottedSupportedType(filename: string)
    ensures HasSupportedSuffix(Lower(filename)) <==> '.' in filename && FileType(filename) in SupportedTypes
  {
    var name := Lower(filename);
    LowerKeepsDots(filename);
    if HasSupportedSuffix(name) {
      GateImpliesSupportedType(filename);
      SuffixHasDot(name);
    }
    if '.' in filename && FileType(filename) in SupportedTypes {
      TypeGivesSuffix(name, FileType(filename));
    }
  }

  /** A name the gate lets through contains a dot */
  lemma SuffixHasDot(name: string)
    requires HasSupportedSuffix(name)
    ensures '.' in name
  {
    var n := |name|;
    if EndsWith(name, ".docx") {
      assert name[n - 5] == name[n - 5..][0];
    } else {
      assert name[n - 4] == name[n - 4..][0];
    }
  }

  /** A name ending in a dot and a supported type passes the gate */
  lemma TypeGivesSuffix(name: string, t: string)
    requires t in SupportedTypes
    requires EndsWith(name, "." + t)
    ensures HasSupportedSuffix(name)
  {
  }

  /** The converse of the gate lemma fails: the dot-less name "pdf" would be
      dispatched as a PDF, yet the gate turns it away */
  lemma GateStrictlyNarrower()
    ensures FileType("pdf") == "pdf"
    ensures !HasSupportedSuffix(Lower("pdf"))
  {
    assert Lower("pdf") == "pdf";
    assert !EndsWith("pdf", ".pdf") && !EndsWith("pdf", ".docx") && !EndsWith("pdf", ".doc");
  }

  /** The size check precedes the type check: an oversized file with an
      unsupported name gets 413, not 415 */
  lemma SizeBeforeType(content: Bytes, libs: Libraries, paths: set<string>)
    requires |content| > DefaultMaxSize
    ensures ParseResumeFile(content, "resume.txt", DefaultMaxSize, libs, paths).response
            == HttpError(413, TooLargeDetail(5242880))
  {
  }
}

=== FILE: extractors.dfy ===
/** The three format-specific extractors of the resume parser. What the
    document libraries (pdfplumber, python-docx, antiword, docx2txt) read out
    of the bytes is not modelled: each extractor receives the library's
    outcome and models how the extractor assembles, falls back and cleans up. */
module Extractors {
  import opened PyBuiltins

  newtype Byte = x: int | 0 <= x < 256
  type Bytes = seq<Byte>

  // ---------------------------------------------------------------------------
  // PDF
  // ---------------------------------------------------------------------------

  /** What `page.extract_text(x_tolerance=3, y_tolerance=3)` did for one page:
      returned a string or None, or raised */
  datatype PageText = Extracted(text: Option<string>) | PageRaised

  /** The page text is truthy: present and not empty */
  predicate HasText(p: PageText) {
    p.Extracted? && p.text.Some? && p.text.value != ""
  }

  /** What one page adds to the running PDF text */
  function PageChunk(p: PageText): string {
    if HasText(p) then p.text.value + "\n\n" else ""
  }

  /** The running text after the given pages: each page with text followed
      by a blank line, in page order */
  function JoinPages(pages: seq<PageText>): string {
    if pages == [] then "" else JoinPages(pages[..|pages| - 1]) + PageChunk(pages[|pages| - 1])
  }

  predicate AnyPageRaised(pages: seq<PageText>) {
    exists i :: 0 <= i < |pages| && pages[i].PageRaised?
  }

  /** The text `extract_text_from_pdf` returns, given what pdfplumber gave
      back (`None` when opening the document raised): the stripped page
      texts, or "" when anything raised */
  function PdfText(doc: Option<seq<PageText>>): (r: string)
    ensures Stripped(r)
    ensures doc.None? ==> r == ""
    ensures doc.Some? && AnyPageRaised(doc.value) ==> r == ""
  {
    if doc.None? || AnyPageRaised(doc.value) then "" else Strip(JoinPages(doc.value))
  }

  /** The page loop of `extract_text_from_pdf` */
  method ExtractTextFromPdf(doc: Option<seq<PageText>>) returns (text: string)
    ensures text == PdfText(doc)
  {
    if doc.None? {
      return "";
    }
    var pages := doc.value;
    var acc := "";
    var i := 0;
    while i < |pages|
      invariant 0 <= i <= |pages|
      invariant !AnyPageRaised(pages[..i])
      invariant acc == JoinPages(pages[..i])
    {
      assert pages[..i + 1][..i] == pages[..i];
      match pages[i]
      case PageRaised =>
        assert pages[i].PageRaised?;
        return "";
      case Extracted(pageText) =>
        if pageText.Some? && pageText.value != "" {
          acc := acc + pageText.value + "\n\n";
        }
      i := i + 1;
    }
    assert pages[..i] == pages;
    text := Strip(acc);
  }

  /** The running text distributes over a split of the pages */
  lemma {:induction false} JoinPagesAppend(a: seq<PageText>, b: seq<PageText>)
    ensures JoinPages(a + b) == JoinPages(a) + JoinPages(b)
    decreases |b|
  {
    if b == [] {
      assert a + b == a;
    } else {
      var b' := b[..|b| - 1];
      assert (a + b)[..|a + b| - 1] == a + b';
      JoinPagesAppend(a, b');
    }
  }

  /** Pages without text (None or "") contribute nothing */
  lemma {:induction false} JoinPagesSkipsBlank(pages: seq<PageText>)
    requires forall i :: 0 <= i < |pages| ==> !HasText(pages[i])
    ensures JoinPages(pages) == ""
  {
    if pages != [] {
      JoinPagesSkipsBlank(pages[..|pages| - 1]);
    }
  }

  /** A PDF whose pages all yield no text extracts to "" */
  lemma BlankPdf(pages: seq<PageText>)
    requires forall i :: 0 <= i < |pages| ==> !HasText(pages[i])
    ensures PdfText(Some(pages)) == ""
  {
    JoinPagesSkipsBlank(pages);
  }

  /** Three pages reading "Experience", "Skills" and "Education" extract to
      the three words separated by blank lines */
  lemma ThreePagePdf()
    ensures PdfText(Some([Extracted(Some("Experience")), Extracted(Some("Skills")),
                          Extracted(Some("Education"))]))
            == "Experience\n\nSkills\n\nEducation"
  {
    var pages := [Extracted(Some("Experience")), Extracted(Some("Skills")), Extracted(Some("Education"))];
    assert !AnyPageRaised(pages);
    assert pages[..2][..1] == pages[..1];
    assert pages[..1][..0] == [];
    assert pages[..3] == pages;
    assert JoinPages(pages[..1]) == "Experience\n\n";
    assert JoinPages(pages[..2]) == "Experience\n\nSkills\n\n";
    assert JoinPages(pages) == "Experience\n\nSkills\n\nEducation\n\n";
    var body := "Experience\n\nSkills\n\nEducation";
    assert JoinPages(pages) == body + "\n\n";
    StripTrailingBlankLine(body);
  }

  /** Stripping text that already has no whitespace at its ends, followed by
      a blank line, removes just the blank line */
  lemma StripTrailingBlankLine(s: string)
    requires s != [] && Stripped(s)
    ensures Strip(s + "\n\n") == s
  {
    var t := s + "\n\n";
    assert TrimStart(t) == t;
    assert t[..|t| - 1] == s + "\n";
    assert t[..|t| - 1][..|t| - 2] == s;
  }

  // ---------------------------------------------------------------------------
  // DOCX
  // ---------------------------------------------------------------------------

  /** The running text after the given paragraphs: every paragraph,
      empty ones included, followed by a newline */
  function JoinParagraphs(paras: seq<string>): string {
    if paras == [] then "" else JoinParagraphs(paras[..|paras| - 1]) + paras[|paras| - 1] + "\n"
  }

  /** The text `extract_text_from_docx` returns, given the paragraph texts
      python-docx read (`None` when opening the document raised) */
  function DocxText(doc: Option<seq<string>>): (r: string)
    ensures Stripped(r)
    ensures doc.None? ==> r == ""
  {
    if doc.None? then "" else Strip(JoinParagraphs(doc.value))
  }

  /** The paragraph loop of `extract_text_from_docx` */
  method ExtractTextFromDocx(doc: Option<seq<string>>) returns (text: string)
    ensures text == DocxText(doc)
  {
    if doc.None? {
      return "";
    }
    var paras := doc.value;
    var acc := "";
    var i := 0;
    while i < |paras|
      invariant 0 <= i <= |paras|
      invariant acc == JoinParagraphs(paras[..i])
    {
      assert paras[..i + 1][..i] == paras[..i];
      acc := acc + paras[i] + "\n";
      i := i + 1;
    }
    assert paras[..i] == paras;
    text := Strip(acc);
  }

  /** One line per paragraph: the running text is the paragraphs joined by
      newlines, plus a final newline */
  lemma {:induction false} JoinParagraphsIsLines(paras: seq<string>)
    requires |paras| >= 1
    ensures JoinParagraphs(paras) == Join(paras, '\n') + "\n"
  {
    if |paras| >= 2 {
      var front := paras[..|paras| - 1];
      JoinParagraphsIsLines(front);
      JoinLast(paras, '\n');
    }
  }

  /** Paragraphs without line breaks are recovered line by line from the
      running text, empty paragraphs included */
  lemma ParagraphsRecoverable(paras: seq<string>)
    requires |paras| >= 1
    requires forall k :: 0 <= k < |paras| ==> '\n' !in paras[k]
    ensures var t := JoinParagraphs(paras); Split(t[..|t| - 1], '\n') == paras
  {
    JoinParagraphsIsLines(paras);
    var t := JoinParagraphs(paras);
    assert t[..|t| - 1] == Join(paras, '\n');
    SplitJoin(paras, '\n');
  }

  /** An empty paragraph between two others survives as a blank line */
  lemma EmptyParagraphKept()
    ensures DocxText(Some(["Name", "", "Skills"])) == "Name\n\nSkills"
  {
    var paras := ["Name", "", "Skills"];
    assert paras[..2][..1] == paras[..1];
    assert paras[..1][..0] == [];
    assert JoinParagraphs(paras[..1]) == "Name\n";
    assert JoinParagraphs(paras[..2]) == "Name\n\n";
    var t := JoinParagraphs(paras);
    assert t == "Name\n\nSkills\n";
    assert TrimStart(t) == t;
    assert t[..|t| - 1] == "Name\n\nSkills";
  }

  // ---------------------------------------------------------------------------
  // DOC
  // ---------------------------------------------------------------------------

  /** The fixed scratch file the DOC extractor writes the payload to */
  const ScratchPath: string := "temp_file.doc"

  /** Writing the payload to the scratch file: it succeeded, or `open` or
      `write` raised, possibly after the file was created */
  datatype ScratchWrite = Written | WriteRaised(created: bool)

  /** Running `antiword` on the scratch file: its output decoded as UTF-8, a
      `subprocess.SubprocessError` (non-zero exit), a `FileNotFoundError`
      (antiword is not installed), or any other exception, which includes a
      failure to decode the output */
  datatype AntiwordRun = Output(text: string) | SubprocessFailed | NotInstalled | OtherError

  /** Extracted text together with the paths that exist afterwards */
  datatype Extraction = Extraction(text: string, paths: set<string>)

  /** `if os.path.exists(p): os.remove(p)` */
  function RemoveIfExists(paths: set<string>, p: string): (r: set<string>)
    ensures p !in r
    ensures forall q :: q in paths && q != p ==> q in r
    ensures r <= paths
  {
    if p in paths then paths - {p} else paths
  }

  /** `extract_text_from_doc`, given the outcomes of writing the scratch file,
      of antiword and of docx2txt (`None` when it raised), and the paths that
      exist before the call */
  function DocText(write: ScratchWrite, antiword: AntiwordRun, docx2txt: Option<string>,
                   paths: set<string>): (r: Extraction)
    ensures r.paths == paths - {ScratchPath}
    ensures Stripped(r.text)
    ensures write.Written? && antiword.Output? ==> r.text == Strip(antiword.text)
    ensures write.Written? && (antiword.SubprocessFailed? || antiword.NotInstalled?) ==>
              r.text == (if docx2txt.Some? then Strip(docx2txt.value) else "")
    ensures write.WriteRaised? || antiword.OtherError? ==> r.text == ""
  {
    var afterWrite := if write.Written? || write.created then paths + {ScratchPath} else paths;
    if write.WriteRaised? then
      Extraction("", RemoveIfExists(afterWrite, ScratchPath))
    else
      match antiword
      case OtherError =>
        Extraction("", RemoveIfExists(afterWrite, ScratchPath))
      case Output(text) =>
        Extraction(Strip(text), RemoveIfExists(afterWrite, ScratchPath))
      case _ =>
        var text := if docx2txt.Some? then docx2txt.value else "";
        Extraction(Strip(text), RemoveIfExists(afterWrite, ScratchPath))
  }

  /** The first strategy in an ordered list that produced text, or "" when
      none did */
  function FirstSuccess(attempts: seq<Option<string>>): (r: string)
    ensures r == "" || exists k :: 0 <= k < |attempts| && attempts[k] == Some(r)
    ensures (forall k :: 0 <= k < |attempts| ==> attempts[k].None?) ==> r == ""
    ensures forall k ::
              (0 <= k < |attempts| && attempts[k].Some? && (forall j :: 0 <= j < k ==> attempts[j].None?))
              ==> r == attempts[k].value
  {
    if attempts == [] then ""
    else if attempts[0].Some? then attempts[0].value
    else FirstSuccess(attempts[1..])
  }

  /** antiword as a strategy: text on success, nothing on a failure that the
      fallback catches */
  function AntiwordAttempt(run: AntiwordRun): Option<string> {
    if run.Output? then Some(run.text) else None
  }

  /** Once the scratch file is written and antiword fails only in a way the
      fallback catches, the DOC text is the stripped output of the first tool
      of the chain antiword, docx2txt that succeeds, else "" */
  lemma DocIsFallbackChain(antiword: AntiwordRun, docx2txt: Option<string>, paths: set<string>)
    requires !antiword.OtherError?
    ensures DocText(Written, antiword, docx2txt, paths).text
            == Strip(FirstSuccess([AntiwordAttempt(antiword), docx2txt]))
  {
    var attempts := [AntiwordAttempt(antiword), docx2txt];
    if !antiword.Output? {
      assert attempts[1..] == [docx2txt];
      assert FirstSuccess([docx2txt][1..]) == "";
    }
  }

  /** docx2txt is only consulted after antiword fails: when antiword
      produces output, what docx2txt would give does not matter, and an
      empty antiword output is not replaced by docx2txt's */
  lemma AntiwordOutputFinal(write: ScratchWrite, text: string, d1: Option<string>, d2: Option<string>,
                            paths: set<string>)
    ensures DocText(write, Output(text), d1, paths) == DocText(write, Output(text), d2, paths)
    ensures AllSpace(text) ==> DocText(write, Output(text), d1, paths).text == ""
  {
  }
}

=== FILE: parser.dfy ===
/** The extraction dispatcher: `process_resume_file` picks an extractor by
    the file name's type and wraps its text in a result record;
    `process_resume_text` wraps text given directly. */
module Parser {
  import opened PyBuiltins
  import opened Extractors

  /** The result dictionary. `wordCount`, `fileType` and `error` are keys that
      may be absent (`None`). */
  datatype ParseResult = ParseResult(
    success: bool,
    text: string,
    wordCount: Option<nat>,
    fileType: Option<string>,
    error: Option<string>)

  /** The libraries the dispatcher calls, as uninterpreted functions of the
      payload: what pdfplumber reads from a PDF (`None` if opening raised),
      the paragraph texts python-docx reads (`None` if opening raised), how
      writing the DOC scratch file goes, what antiword and docx2txt (`None` if
      it raised) produce, and the token count spaCy gives a text. */
  datatype Libraries = Libraries(
    pdfplumber: Bytes -> Option<seq<PageText>>,
    pythonDocx: Bytes -> Option<seq<string>>,
    scratchWrite: ScratchWrite,
    antiword: Bytes -> AntiwordRun,
    docx2txt: Bytes -> Option<string>,
    tokenCount: string -> nat)

  const UnsupportedPrefix: string := "Unsupported file type: "
  const ExtractionFailed: string := "Failed to extract text from file"
  const NoTextProvided: string := "No text provided"

  /** The file types with an extractor */
  const SupportedTypes: set<string> := {"pdf", "docx", "doc"}

  /** The shape every result has: success exactly when there is text, no
      error and a word count; a failure carries no file type */
  predicate WellFormed(r: ParseResult) {
    && (r.success <==> r.text != "")
    && (r.success <==> r.error.None?)
    && (r.success <==> r.wordCount.Some?)
    && (!r.success ==> r.fileType.None?)
  }

  function Failure(message: string): (r: ParseResult)
    ensures WellFormed(r) && !r.success
    ensures r.error == Some(message)
  {
    ParseResult(false, "", None, None, Some(message))
  }

  /** `filename.lower().split('.')[-1]`: the lower-cased text after the last
      dot, or the whole lower-cased name when it has no dot */
  function FileType(filename: string): (t: string)
    ensures '.' !in t
    ensures EndsWith(Lower(filename), t)
    ensures '.' !in filename ==> t == Lower(filename)
    ensures '.' in filename ==> EndsWith(Lower(filename), "." + t)
  {
    var name := Lower(filename);
    LowerKeepsDots(filename);
    AfterLastDotSpec(name);
    var t := AfterLastDot(name);
    assert '.' in filename ==> name[|name| - |t| - 1..] == "." + t;
    t
  }

  /** The extractor table: the text the extractor for a supported type
      returns, and the paths that exist afterwards */
  function ExtractByType(fileType: string, fileBytes: Bytes, libs: Libraries,
                         paths: set<string>): (e: Extraction)
    requires fileType in SupportedTypes
    ensures Stripped(e.text)
    ensures e.paths == if fileType == "doc" then paths - {ScratchPath} else paths
    // pdf selects pdfplumber, docx selects python-docx, doc the DOC extractor
    ensures fileType == "pdf" ==> e.text == PdfText(libs.pdfplumber(fileBytes))
    ensures fileType == "docx" ==> e.text == DocxText(libs.pythonDocx(fileBytes))
    ensures fileType == "doc" ==>
              e == DocText(libs.scratchWrite, libs.antiword(fileBytes), libs.docx2txt(fileBytes), paths)
  {
    if fileType == "pdf" then Extraction(PdfText(libs.pdfplumber(fileBytes)), paths)
    else if fileType == "docx" then Extraction(DocxText(libs.pythonDocx(fileBytes)), paths)
    else DocText(libs.scratchWrite, libs.antiword(fileBytes), libs.docx2txt(fileBytes), paths)
  }

  /** A result record together with the paths that exist afterwards */
  datatype FileOutcome = FileOutcome(result: ParseResult, paths: set<string>)

  /** `process_resume_file` */
  function ProcessResumeFile(fileBytes: Bytes, filename: string, libs: Libraries,
                             paths: set<string>): (r: FileOutcome)
    ensures WellFormed(r.result)
    // an unknown type is reported without running any extractor
    ensures FileType(filename) !in SupportedTypes ==>
              r.result == Failure(UnsupportedPrefix + FileType(filename)) && r.paths == paths
    // a known type succeeds exactly when its extractor yields text
    ensures FileType(filename) in SupportedTypes ==>
              var e := ExtractByType(FileType(filename), fileBytes, libs, paths);
              && r.paths == e.paths
              && (r.result.success <==> e.text != "")
              && (r.result.success ==> r.result.text == e.text)
              && (!r.result.success ==> r.result == Failure(ExtractionFailed))
    // a success echoes the type, counts the tokens and has no outer whitespace
    ensures r.result.success ==>
              && FileType(filename) in SupportedTypes
              && r.result.fileType == Some(FileType(filename))
              && r.result.wordCount == Some(libs.tokenCount(r.result.text))
              && Stripped(r.result.text)
    // only the DOC extractor touches the file system, and it leaves no scratch file
    ensures r.paths == if FileType(filename) == "doc" then paths - {ScratchPath} else paths
  {
    var fileType := FileType(filename);
    if fileType !in SupportedTypes then
      FileOutcome(Failure(UnsupportedPrefix + fileType), paths)
    else
      var e := ExtractByType(fileType, fileBytes, libs, paths);
      if e.text != "" then
        FileOutcome(ParseResult(true, e.text, Some(libs.tokenCount(e.text)), Some(fileType), None), e.paths)
      else
        FileOutcome(Failure(ExtractionFailed), e.paths)
  }

  /** `process_resume_text` */
  function ProcessResumeText(text: string, tokenCount: string -> nat): (r: ParseResult)
    ensures WellFormed(r)
    ensures r.success <==> text != ""
    ensures !r.success ==> r == Failure(NoTextProvided)
    ensures r.success ==> r.text == text && r.fileType.None? && r.wordCount == Some(tokenCount(text))
  {
    if text == "" then Failure(NoTextProvided)
    else ParseResult(true, text, Some(tokenCount(text)), None, None)
  }

  /** A file whose type is `pdf` is read by pdfplumber alone: it succeeds
      exactly when the PDF text is non-empty, carries that text, and leaves
      the file system as it was */
  lemma PdfDispatch(fileBytes: Bytes, filename: string, libs: Libraries, paths: set<string>)
    requires FileType(filename) == "pdf"
    ensures var r := ProcessResumeFile(fileBytes, filename, libs, paths);
            && (r.result.success <==> PdfText(libs.pdfplumber(fileBytes)) != "")
            && (r.result.success ==> r.result.text == PdfText(libs.pdfplumber(fileBytes)))
            && r.paths == paths
  {
  }

  /** A file whose type is `docx` is read by python-docx alone */
  lemma DocxDispatch(fileBytes: Bytes, filename: string, libs: Libraries, paths: set<string>)
    requires FileType(filename) == "docx"
    ensures var r := ProcessResumeFile(fileBytes, filename, libs, paths);
            && (r.result.success <==> DocxText(libs.pythonDocx(fileBytes)) != "")
            && (r.result.success ==> r.result.text == DocxText(libs.pythonDocx(fileBytes)))
            && r.paths == paths
  {
  }

  /** A file whose type is `doc` goes through the DOC extractor, which
      decides both the text and the paths left afterwards */
  lemma DocDispatch(fileBytes: Bytes, filename: string, libs: Libraries, paths: set<string>)
    requires FileType(filename) == "doc"
    ensures var r := ProcessResumeFile(fileBytes, filename, libs, paths);
            var d := DocText(libs.scratchWrite, libs.antiword(fileBytes), libs.docx2txt(fileBytes), paths);
            && (r.result.success <==> d.text != "")
            && (r.result.success ==> r.result.text == d.text)
            && r.paths == d.paths
  {
  }

  /** Whitespace-only text is not rejected by the dispatcher: it is echoed */
  lemma WhitespaceTextAccepted(tokenCount: string -> nat)
    ensures ProcessResumeText("   ", tokenCount).success
    ensures ProcessResumeText("   ", tokenCount).text == "   "
  {
  }

  /** Upper and lower case in the name select the same extractor */
  lemma FileTypeIgnoresCase(filename: string)
    ensures FileType(Lower(filename)) == FileType(filename)
  {
    LowerProperties(filename);
  }
}

=== FILE: py_builtins.dfy ===
/** The parts of Python's built-in `str` and `int` behaviour the resume parser
    relies on: `str.isspace`/`str.strip`, `str.lower`, `str.split`/`str.join`,
    `str.endswith` and `str(int)`, plus the `None`-able value. Strings are
    sequences of Unicode scalar values. Python's lone surrogate code points
    are not represented. */
module PyBuiltins {

  /** A value that may be Python's `None` */
  datatype Option<+T> = None | Some(value: T)

  // ---------------------------------------------------------------------------
  // Whitespace and str.strip()
  // ---------------------------------------------------------------------------

  /** The 29 characters for which Python's `str.isspace()` holds: those of
      bidirectional class WS, B or S, or of general category Zs */
  const PythonWhitespace: set<char> := {
    '\t', '\n', '\U{0B}', '\U{0C}', '\r', '\U{1C}', '\U{1D}', '\U{1E}', '\U{1F}', ' ',
    '\U{85}', '\U{A0}', '\U{1680}',
    '\U{2000}', '\U{2001}', '\U{2002}', '\U{2003}', '\U{2004}', '\U{2005}',
    '\U{2006}', '\U{2007}', '\U{2008}', '\U{2009}', '\U{200A}',
    '\U{2028}', '\U{2029}', '\U{202F}', '\U{205F}', '\U{3000}'}

  /** Python's `str.isspace()` on one character: exactly the characters that
      `str.strip()` with no argument removes */
  predicate IsSpace(c: char): (b: bool)
    ensures b <==> c in PythonWhitespace
  {
    || ('\t' <= c <= '\r')
    || ('\U{1C}' <= c <= '\U{1F}')
    || c == ' '
    || c == '\U{85}'
    || c == '\U{A0}'
    || c == '\U{1680}'
    || ('\U{2000}' <= c <= '\U{200A}')
    || c == '\U{2028}'
    || c == '\U{2029}'
    || c == '\U{202F}'
    || c == '\U{205F}'
    || c == '\U{3000}'
  }

  /** Every character is whitespace: `not s.strip()` in Python */
  predicate AllSpace(s: string) {
    forall i :: 0 <= i < |s| ==> IsSpace(s[i])
  }

  /** The text neither starts nor ends with whitespace */
  predicate Stripped(s: string) {
    s == [] || (!IsSpace(s[0]) && !IsSpace(s[|s| - 1]))
  }

  /** `s.lstrip()`: the suffix left after dropping the leading whitespace */
  function TrimStart(s: string): (r: string)
    ensures |r| <= |s| && r == s[|s| - |r|..]
    ensures forall i :: 0 <= i < |s| - |r| ==> IsSpace(s[i])
    ensures r != [] ==> !IsSpace(r[0])
  {
    if s != [] && IsSpace(s[0]) then TrimStart(s[1..]) else s
  }

  /** `s.rstrip()`: the prefix left after dropping the trailing whitespace */
  function TrimEnd(s: string): (r: string)
    ensures |r| <= |s| && r == s[..|r|]
    ensures forall i :: |r| <= i < |s| ==> IsSpace(s[i])
    ensures r != [] ==> !IsSpace(r[|r| - 1])
  {
    if s != [] && IsSpace(s[|s| - 1]) then TrimEnd(s[..|s| - 1]) else s
  }

  /** `s.strip()`: a slice `s[i..j]` of the input with only whitespace outside
      it and no whitespace at either of its ends */
  function Strip(s: string): (r: string)
    ensures Stripped(r)
    ensures exists i, j :: 0 <= i <= j <= |s| && r == s[i..j] && AllSpace(s[..i]) && AllSpace(s[j..])
    ensures r == [] <==> AllSpace(s)
  {
    var t := TrimStart(s);
    var r := TrimEnd(t);
    TrimBounds(s, t, r);
    var i, j := |s| - |t|, |s| - |t| + |r|;
    assert r == s[i..j] && AllSpace(s[..i]) && AllSpace(s[j..]);
    assert r == [] ==> AllSpace(s) by {
      if r == [] {
        assert t == [];
      }
    }
    assert r != [] ==> !AllSpace(s) by {
      if r != [] {
        assert s[i] == r[0];
      }
    }
    r
  }

  /** Whitespace cut from the front of `s`, giving `t`, and then from the
      back of `t`, giving `r`, leaves `r` as a slice of `s` with only
      whitespace on either side */
  lemma TrimBounds(s: string, t: string, r: string)
    requires |t| <= |s| && t == s[|s| - |t|..]
    requires |r| <= |t| && r == t[..|r|]
    requires forall k :: 0 <= k < |s| - |t| ==> IsSpace(s[k])
    requires forall k :: |r| <= k < |t| ==> IsSpace(t[k])
    ensures r == s[|s| - |t|..|s| - |t| + |r|]
    ensures AllSpace(s[..|s| - |t|])
    ensures AllSpace(s[|s| - |t| + |r|..])
  {
    var i, j := |s| - |t|, |s| - |t| + |r|;
    SliceOfSuffix(s, i, |r|);
    forall k | 0 <= k < i ensures IsSpace(s[..i][k]) {
      assert s[..i][k] == s[k];
    }
    forall k | 0 <= k < |s| - j ensures IsSpace(s[j..][k]) {
      assert s[j..][k] == t[|r| + k];
    }
  }

  /** A prefix of a suffix is a slice */
  lemma SliceOfSuffix<T>(s: seq<T>, i: nat, n: nat)
    requires i + n <= |s|
    ensures s[i..][..n] == s[i..i + n]
  {
  }

  /** Stripping twice strips nothing more */
  lemma StripIdempotent(s: string)
    ensures Strip(Strip(s)) == Strip(s)
  {
    var r := Strip(s);
    if r != [] {
      assert TrimStart(r) == r;
      assert TrimEnd(r) == r;
    }
  }

  /** Stripped text is left unchanged by `strip()` */
  lemma StripOfStripped(s: string)
    requires Stripped(s)
    ensures Strip(s) == s
  {
    if s != [] {
      assert TrimStart(s) == s;
      assert TrimEnd(s) == s;
    }
  }

  // ---------------------------------------------------------------------------
  // str.lower()
  // ---------------------------------------------------------------------------

  const AsciiUpper: string := "ABCDEFGHIJKLMNOPQRSTUVWXYZ"
  const AsciiLower: string := "abcdefghijklmnopqrstuvwxyz"

  /** Lower-casing of one character: an ASCII capital becomes the small letter
      at the same place in the alphabet, every other character is kept */
  function LowerChar(c: char): (d: char)
    ensures forall k :: 0 <= k < |AsciiUpper| && c == AsciiUpper[k] ==> d == AsciiLower[k]
    ensures c !in AsciiUpper ==> d == c
  {
    if 'A' <= c <= 'Z' then (c as int + 32) as char else c
  }

  /** `s.lower()`: the same length, every ASCII capital replaced by its small
      letter and every other character kept */
  function Lower(s: string): (r: string)
    ensures |r| == |s|
    ensures forall i, k :: 0 <= i < |s| && 0 <= k < |AsciiUpper| && s[i] == AsciiUpper[k] ==> r[i] == AsciiLower[k]
    ensures forall i :: 0 <= i < |s| && s[i] !in AsciiUpper ==> r[i] == s[i]
  {
    seq(|s|, i requires 0 <= i < |s| => LowerChar(s[i]))
  }

  /** Lower-casing keeps the length, maps each character on its own, and
      lower-casing a lower-cased string changes nothing */
  lemma LowerProperties(s: string)
    ensures |Lower(s)| == |s|
    ensures forall i :: 0 <= i < |s| ==> Lower(s)[i] == LowerChar(s[i])
    ensures Lower(Lower(s)) == Lower(s)
    ensures forall c :: c in Lower(s) && !('a' <= c <= 'z') ==> c in s
  {
  }

  /** The dots of a name are where they were before lower-casing */
  lemma LowerKeepsDots(s: string)
    ensures forall i :: 0 <= i < |s| ==> (Lower(s)[i] == '.' <==> s[i] == '.')
    ensures '.' in Lower(s) <==> '.' in s
  {
    if '.' in s {
      var i :| 0 <= i < |s| && s[i] == '.';
      assert Lower(s)[i] == '.';
    }
  }

  // ---------------------------------------------------------------------------
  // str.split(sep) and sep.join(parts)
  // ---------------------------------------------------------------------------

  /** `s.split(sep)` for a one-character separator: the maximal runs between
      separators, always at least one (possibly empty) piece */
  function Split(s: string, sep: char): (parts: seq<string>)
    ensures |parts| >= 1
    ensures forall k :: 0 <= k < |parts| ==> sep !in parts[k]
  {
    if s == [] then [[]]
    else
      var rest := Split(s[1..], sep);
      if s[0] == sep then [[]] + rest
      else [[s[0]] + rest[0]] + rest[1..]
  }

  /** `sep.join(parts)` */
  function Join(parts: seq<string>, sep: char): string {
    if parts == [] then []
    else if |parts| == 1 then parts[0]
    else parts[0] + [sep] + Join(parts[1..], sep)
  }

  /** Joining the pieces of a split gives back the original string */
  lemma {:induction false} JoinSplit(s: string, sep: char)
    ensures Join(Split(s, sep), sep) == s
  {
    if s != [] {
      var rest := Split(s[1..], sep);
      JoinSplit(s[1..], sep);
      if s[0] == sep {
        assert ([[]] + rest)[1..] == rest;
      } else {
        var parts := [[s[0]] + rest[0]] + rest[1..];
        if |rest| > 1 {
          assert parts[1..] == rest[1..];
        }
      }
    }
  }

  /** A separator-free prefix glues onto the first piece of the split */
  lemma {:induction false} SplitPrefix(p: string, t: string, sep: char)
    requires sep !in p
    ensures Split(p + t, sep) == [p + Split(t, sep)[0]] + Split(t, sep)[1..]
  {
    if p != [] {
      assert (p + t)[1..] == p[1..] + t;
      SplitPrefix(p[1..], t, sep);
      assert [p[0]] + (p[1..] + Split(t, sep)[0]) == p + Split(t, sep)[0];
    } else {
      var parts := Split(t, sep);
      assert p + t == t;
      assert p + parts[0] == parts[0];
      assert [parts[0]] + parts[1..] == parts;
    }
  }

  /** Splitting a join of separator-free pieces gives back the pieces */
  lemma {:induction false} SplitJoin(parts: seq<string>, sep: char)
    requires |parts| >= 1
    requires forall k :: 0 <= k < |parts| ==> sep !in parts[k]
    ensures Split(Join(parts, sep), sep) == parts
  {
    var p := parts[0];
    if |parts| == 1 {
      SplitPrefix(p, [], sep);
      assert p + [] == p;
    } else {
      var tail := Join(parts[1..], sep);
      SplitJoin(parts[1..], sep);
      assert p + [sep] + tail == p + ([sep] + tail);
      SplitPrefix(p, [sep] + tail, sep);
      assert ([sep] + tail)[1..] == tail;
      assert Split([sep] + tail, sep) == [[]] + parts[1..];
      assert p + [] == p;
    }
  }

  /** The last piece of a join follows the last separator */
  lemma {:induction false} JoinLast(parts: seq<string>, sep: char)
    requires |parts| >= 2
    ensures Join(parts, sep) == Join(parts[..|parts| - 1], sep) + [sep] + parts[|parts| - 1]
  {
    if |parts| > 2 {
      JoinLast(parts[1..], sep);
      assert parts[1..][..|parts| - 2] == parts[..|parts| - 1][1..];
    }
  }

  /** `s.split('.')[-1]`: the text after the last dot, or all of `s` when it
      has no dot */
  function AfterLastDot(s: string): string {
    var parts := Split(s, '.');
    parts[|parts| - 1]
  }

  /** The suffix of `s` with a given length */
  function Suffix(s: string, n: nat): string
    requires n <= |s|
  {
    s[|s| - n..]
  }

  /** What `split('.')[-1]` yields: a dot-free suffix of `s` that is either
      all of `s` (no dot at all) or immediately preceded by a dot */
  lemma AfterLastDotSpec(s: string)
    ensures '.' !in AfterLastDot(s)
    ensures |AfterLastDot(s)| <= |s| && AfterLastDot(s) == Suffix(s, |AfterLastDot(s)|)
    ensures '.' !in s ==> AfterLastDot(s) == s
    ensures '.' in s ==> |AfterLastDot(s)| < |s| && s[|s| - |AfterLastDot(s)| - 1] == '.'
  {
    var parts := Split(s, '.');
    var r := parts[|parts| - 1];
    JoinSplit(s, '.');
    if |parts| >= 2 {
      JoinLast(parts, '.');
      var front := Join(parts[..|parts| - 1], '.');
      assert s == front + ['.'] + r;
      assert s[|s| - |r| - 1] == '.';
      assert s[|s| - |r|..] == r;
    }
  }

  /** A dot-free tail that follows a dot is what `split('.')[-1]` yields */
  lemma AfterLastDotOfSuffix(s: string, q: string)
    requires '.' !in q
    requires |q| < |s| && s[|s| - |q| - 1] == '.' && s[|s| - |q|..] == q
    ensures AfterLastDot(s) == q
  {
    AfterLastDotSpec(s);
    var r := AfterLastDot(s);
    assert '.' in s by { assert s[|s| - |q| - 1] == '.'; }
  }

  /** `s.endswith(suffix)` */
  predicate EndsWith(s: string, suffix: string) {
    |suffix| <= |s| && s[|s| - |suffix|..] == suffix
  }

  // ---------------------------------------------------------------------------
  // str(int)
  // ---------------------------------------------------------------------------

  predicate IsDigit(c: char) {
    '0' <= c <= '9'
  }

  function DigitChar(d: nat): (c: char)
    requires d < 10
    ensures IsDigit(c)
  {
    "0123456789"[d]
  }

  function DigitValue(c: char): nat
    requires IsDigit(c)
  {
    c as int - '0' as int
  }

  /** The decimal numeral of a natural number, without leading zeros */
  function NatToDecimal(n: nat): (s: string)
    ensures |s| >= 1
    ensures forall i :: 0 <= i < |s| ==> IsDigit(s[i])
    ensures s[0] == '0' ==> n == 0 && s == "0"
    decreases n
  {
    if n < 10 then [DigitChar(n)] else NatToDecimal(n / 10) + [DigitChar(n % 10)]
  }

  /** The value a string of decimal digits denotes */
  function DecimalValue(s: string): nat
    requires forall i :: 0 <= i < |s| ==> IsDigit(s[i])
  {
    if s == [] then 0 else 10 * DecimalValue(s[..|s| - 1]) + DigitValue(s[|s| - 1])
  }

  /** Reading back the numeral `str(n)` gives `n` */
  lemma {:induction false} NatToDecimalRoundTrip(n: nat)
    ensures DecimalValue(NatToDecimal(n)) == n
    decreases n
  {
    if n >= 10 {
      var s := NatToDecimal(n);
      NatToDecimalRoundTrip(n / 10);
      assert s[..|s| - 1] == NatToDecimal(n / 10);
    }
  }

  /** `str(i)` for a Python `int` */
  function IntToDecimal(i: int): (s: string)
    ensures i < 0 <==> (s != [] && s[0] == '-')
    ensures var d := if i < 0 then s[1..] else s;
            && (forall k :: 0 <= k < |d| ==> IsDigit(d[k]))
            && DecimalValue(d) == (if i < 0 then -i else i)
            && |d| >= 1 && (d[0] == '0' ==> d == "0")
  {
    var n: nat := if i < 0 then -i else i;
    NatToDecimalRoundTrip(n);
    if i < 0 then
      var s := "-" + NatToDecimal(n);
      assert s[1..] == NatToDecimal(n);
      s
    else NatToDecimal(n)
  }
}
